=== FILE: README.md ===
# embedbin: materialising an embedded executable, modelled in Dafny

embedbin writes an executable payload held in memory to a file so it can be run as a subprocess.
`Exec.Command` materialises the payload once. It memoises the resulting path and then builds the command.
`createFile` does the materialisation. It places the payload at a content-addressed path
`<tempdir>/embedbin/<name>-<hex sha256><suffix>`. It writes there through a `.tmp` sibling followed by a rename.
If that fails, it falls back to a freshly named temporary file. If both fail, it reports both causes.

The model works over an abstract file system: a map from path to `(bytes, mode)`, plus a set of directories.
It also keeps a count of content writes, which stands in for modification times.
Every os call is a pure function (module `Os`). It either updates the map or fails.
Failures that the map does not decide (permissions, a read-only or full disk, I/O errors) are inputs.
They arrive as optional `Fault`s, one per call site, grouped in `CreateFaults`.
The randomness `os.CreateTemp` uses is an input stream of names.
The modules are:

- `Wrappers`: `Option` and `Result`.
- `Hex`: bytes, and lowercase hex encoding with its inverse.
- `Errors`: Go error values. These are `*PathError`, `*LinkError`, `%w` wrapping and `errors.Join`, plus `os.IsExist` and `errors.Is`.
- `Os`: the file system and the os calls.
- `Materializer`: `createFile`, `saveFile`, `writeFile` and `saveTempFile`.
- `Launcher`: `Exec`, `NewExec` and `Command`, plus runs of repeated calls.

`sha256.Sum256` is not modelled. The `Platform` value carries it as an arbitrary function onto 32 bytes,
together with the temp-directory root and the platform's executable suffix.

## Model

| member | source | states |
|---|---|---|
| Launcher.NewExec | exec.go:23-26 | a new Exec carries the given name and bytes and has no memoised path |
| Launcher.Command | exec.go:28-38 | createFile runs only while the path is empty. Once a path is memoised, the call returns a command for that path and leaves Exec and file system untouched. A success memoises a non-empty path, which holds exactly the payload with mode 0755. A failure wraps createFile's error under "failed to create file <name>" and leaves the Exec unchanged |
| Launcher.ResolvedIsSticky | exec.go:30-37 | after the path is set, any number of further calls, each with its own faults and arguments, keep that path, never materialise again and never touch the file system |
| Launcher.MaterialisesAtMostOnce | exec.go:29-37 | over any run of calls, each with its own faults and arguments, createFile succeeds at most once. That happens exactly when the Exec goes from unresolved to resolved. Name and bytes never change. Failed attempts before it are not counted, and they may leave files behind |
| Launcher.RetryAfterFailure | exec.go:31-35 | a failed call does not poison the Exec. Once the faults clear, and no file is in the way of the cache directory, the next call succeeds at the canonical path and memoises it |
| Materializer.CanonicalPath | exec.go:40-54 | the cache path is the cache directory `<tempdir>/embedbin` (tempDir), then "/<name>-", then 64 lowercase hex digits that decode back to sha256(data), then the suffix |
| Materializer.CanonicalPathInjective | exec.go:51-54 | two payloads get the same cache path under one name exactly when their digests agree |
| Materializer.CreateFile | exec.go:44-67 | createFile as written, calling saveFile as written. On success the returned path is non-empty and holds exactly the payload with the requested mode. A non-canonical result is a path that did not exist before. Every earlier file other than the canonical path and its .tmp sibling is untouched. Every new file lies inside the cache directory |
| Materializer.MkdirFailureChangesNothing | exec.go:45-49 | if the cache directory cannot be created, createFile returns MkdirAll's error and the file system is unchanged |
| Materializer.CanonicalExactlyWhenSaved | exec.go:54-58 | createFile returns the canonical path exactly when saveFile succeeds there |
| Materializer.FallsBackWhenSaveFails | exec.go:60-66 | after a failed saveFile the outcome is saveTempFile's. If that fails too, the error names the file and wraps both causes |
| Materializer.SucceedsWithoutFaults | exec.go:44-58 | with no injected fault and no file blocking the cache directory, createFile lands on the canonical path |
| Materializer.FallbackSucceedsWithoutFaults | exec.go:55-63 | when saveFile fails but the temporary route meets no fault, the names hold no separator, and a random candidate is free, createFile succeeds. The path is off the canonical one, drawn from the random stream, and holds the payload |
| Materializer.TempRouteSucceeds | exec.go:116-139 | saveTempFile succeeds when it meets no fault, neither the name nor the suffix holds a separator, the suffix holds no `*`, and a random candidate is free |
| Materializer.NameHasNoSeparator | exec.go:51-52 | the canonical name `<filename>-<hex digest>` holds a separator only if the file name does |
| Materializer.CreateFileCorrected | exec.go:44-67 | createFile with the corrected saveFile (see Findings). It keeps the same guarantees as CreateFile: on success the path holds exactly the payload with the mode, a non-canonical result is fresh, and only the canonical path and its .tmp sibling can change |
| Materializer.RepeatedCallIsNoOp | exec.go:51-58 | with the corrected saveFile: after the payload sits at its canonical path, a second call returns the same path and changes nothing, not even a write |
| Materializer.AsWrittenRewritesOnRepeat | exec.go:51-58 | as written: after the payload sits at its canonical path, a second call returns the same path but rewrites the identical bytes (one more write) |
| Materializer.AsWrittenFallsBackOnCacheHit | exec.go:55-63 | as written: the canonical file already holds the payload with its mode, but its .tmp sibling cannot be created. When the fallback succeeds, createFile returns a new temporary file that did not exist before, and the map grows by one entry. The corrected version returns the canonical path and changes nothing |
| Materializer.AsWrittenFailsOnReadOnlyCacheHit | exec.go:55-66 | as written: the canonical file already holds the payload with its mode, but the directory refuses both the .tmp sibling and the temporary file. createFile then fails. The corrected version returns the canonical path and changes nothing |
| Materializer.CanonicalPathsApart | exec.go:51-54 | a payload with a different digest never gets the same cache path, nor that path's .tmp sibling |
| Materializer.ContentChangeIsolation | exec.go:51-55 | materialising different content under the same name leaves the file cached for the first content unchanged |
| Materializer.WriteFile | exec.go:97-114 | on success the target holds (data, mode) and the .tmp sibling is gone. No other path changes. It succeeds exactly when none of WriteFile, Chmod and Rename fails. A failed create changes nothing. A failed Chmod or Rename leaves the sibling holding the data and the target untouched |
| Materializer.Reconcile | exec.go:75-93 | on an existing file whose bytes already match, the content is never rewritten and only the mode may change. When the mode matches too, nothing happens at all |
| Materializer.SaveFile | exec.go:69-95 | corrected saveFile. On success the path holds (data, mode). A stat failure other than not-exist is reported unchanged. When Stat succeeds, a file already holding the bytes is never rewritten. A failure never removes an entry |
| Materializer.SaveFileAsWritten | exec.go:69-95 | saveFile as written. Whatever Stat reports, it behaves exactly like writeFile |
| Materializer.AsWrittenRewritesCorrectFile | exec.go:70-73 | take a file already holding the payload with its mode. The corrected saveFile is a no-op on it. The code as written rewrites it, or fails when the .tmp sibling cannot be created |
| Materializer.SaveTempFile | exec.go:116-139 | on success, the path did not exist before. When the suffix holds no `*`, it is `<dir>/<name>-<random><suffix>`. It holds exactly (data, mode). No earlier file changes. A failure after the create leaves the created file in place. A name containing a separator always fails. It succeeds exactly when the pattern has no separator, a random candidate is free, and the open, write, sync and chmod calls meet no fault |
| Os.StatError | exec.go:70-71 | os.IsExist (modelled by Errors.IsExist, which looks only through a PathError or LinkError to its errno) is false for every outcome os.Stat can produce |
| Os.MkdirAll | exec.go:46 | an existing directory is accepted whatever the fault. A file in the way gives ENOTDIR. Files are never touched |
| Os.WriteFile | exec.go:99 | the file ends up holding the data. The mode applies only when the file is created |
| Os.Chmod | exec.go:104 | only the mode of an existing file changes; a missing file fails |
| Os.Rename | exec.go:109 | the source's file moves to the destination and the source entry disappears |
| Os.CreateTemp | exec.go:117 | opens a path that did not exist, as an empty 0600 file. The path is drawn from the random stream as dir/prefix+random+suffix. A pattern holding a separator is refused. It succeeds exactly when the pattern has no separator, one of the first 10000 candidates is free, and the open meets no fault |
| Os.SplitAtStar | exec.go:117 | the pattern `<name>-*<suffix>` splits into `<name>-` and the suffix when the suffix has no '*' |
| Os.FirstFree | exec.go:117 | the chosen try is the first of at most 10000 whose name is free; none is chosen only when all 10000 are taken |
| Os.Stat | exec.go:70 | reports the size and mode of an existing file, and not-exist for a missing one |
| Os.ReadFile | exec.go:79 | returns the file's bytes, or fails for a missing file |
| Os.FileWrite | exec.go:124 | the created file holds the data and keeps its mode |
| Os.Sync | exec.go:129 | never changes the file system |
| Hex.Encode | exec.go:52 | two lowercase hex digits per byte |
| Hex.DecodeEncode | exec.go:52 | decoding the hex spelling gives back the bytes |
| Hex.EncodeDecode | exec.go:52 | every accepted hex string is the spelling of what it decodes to |
| Hex.EncodeInjective | exec.go:52 | distinct digests have distinct spellings |
| Errors.WrapBoth | exec.go:66 | the joined, wrapped error keeps both causes |

## Left out

- The subprocess: `exec.CommandContext`, the context, and running the command. `Command` only returns the path and arguments it would use.
- `sha256.Sum256` (FIPS 180-4) is an arbitrary function onto 32 bytes. `os.TempDir()` is a parameter.
- The platform `suffix` constant lives in build-tagged files that are not part of this model. It is a parameter.
- `filepath.Join` path cleaning: joining is plain concatenation with '/'. `CreateTemp`'s `joinPath` is treated the same way. Windows' second separator '\\' is not modelled.
- `MkdirAll` creates one directory, not its missing parents. Directories carry no mode, so its `perm` argument and umask are not modelled.
- Umask effects on `WriteFile` and `CreateTemp` modes are not modelled.
- File operations do not check that the parent directory exists or that the path names a directory. Such failures come only through the injected faults.
- Os.WriteFile, Os.FileWrite: a failed write leaves the file as it was. Partial writes and truncation before a failure are not modelled.
- `defer file.Close` and the durability `Sync` promises are not modelled. Closing cannot fail in the model, and `Sync` only reports its fault.
- Error strings are not rendered. Errors are structural values, and "wraps the filename" means the outer error is `Wrapped("failed to create file <name>", …)`.
- Races between processes sharing the cache directory are not modelled. The code takes no lock, and every call here is sequential.
- Go strings are byte strings, while `Path` and `string` here are sequences of characters. The '/' and '*' checks agree either way, because UTF-8 never puts those bytes inside a multi-byte character.
- `NewExec` keeps the caller's `[]byte` without copying (exec.go:25), so a caller that later changes the slice changes the digest and the content later calls write. Here the payload is an immutable `seq<byte>` value.
- exec_test.go compiles C with gcc and runs the binary. It is pure I/O and has nothing to state as a contract.

`CreateFile` and `Command` follow the code as written: they save through `SaveFileAsWritten`, which always rewrites.
The corrected version `CreateFileCorrected` exists only to state what exec.go:71 evidently intends (see Findings).

## Findings

| source | as written | input that shows it | evidently intended | confidence | as-written member | corrected member |
|---|---|---|---|---|---|---|
| exec.go:71 | `if !os.IsExist(err) { return writeFile(...) }`. `os.IsExist` is false for a nil error and for a not-exist error, and os.Stat yields nothing else, so the guard always holds and lines 75-93 are dead. | Canonical path already holds the payload with mode 0755, and creating the `.tmp` sibling is denied. As written, saveFile rewrites (or fails), and createFile then falls back to a new temporary file on every call. If the directory is read-only and also refuses that temporary file, createFile (and so Command) fails, where the corrected version returns the canonical path untouched. | Write only when the file is missing, report other stat errors, otherwise reconcile size, bytes and mode in place. Lines 75-93 compare an existing file's size, bytes and mode, and lines 80-81 report a read failure, which only makes sense if line 71 was meant to send only a missing file to writeFile | high, not executed | Materializer.SaveFileAsWritten (with Materializer.AsWrittenRewritesCorrectFile, Materializer.AsWrittenFallsBackOnCacheHit, Materializer.AsWrittenFailsOnReadOnlyCacheHit) | Materializer.SaveFile (with Materializer.CreateFileCorrected, Materializer.RepeatedCallIsNoOp) |

=== FILE: errors.dfy ===
/** Go error values as exec.go creates, wraps and inspects them. */
module Errors {
  import opened Wrappers

  /** The innermost cause of a failed os call: a syscall errno, or the os
      package's own sentinel for a CreateTemp pattern that holds a separator. */
  datatype Errno = ENOENT | EEXIST | EACCES | EPERM | EROFS | ENOSPC | EIO | ENOTDIR | PatternHasSeparator

  /** A failure injected into an os call from outside (permissions, a full or
      read-only disk, an I/O error). Whether a path exists is decided by the
      file system map, never by an injected fault, so EEXIST is not one. */
  type Fault = e: Errno | e != EEXIST witness EIO

  datatype Error =
    | PathError(op: string, path: string, errno: Errno)                      // *fs.PathError
    | LinkError(op: string, oldPath: string, newPath: string, errno: Errno)  // *os.LinkError
    | Wrapped(msg: string, inner: Error)                                     // fmt.Errorf("<msg>: %w", inner)
    | Joined(errs: seq<Error>)                                               // errors.Join

  /** os.IsExist: looks through a PathError or LinkError to its errno and
      through nothing else (neither %w wrapping nor errors.Join); a nil
      error is not an "exists" error. */
  predicate IsExist(err: Option<Error>) {
    match err
    case None => false
    case Some(PathError(_, _, errno)) => errno == EEXIST
    case Some(LinkError(_, _, _, errno)) => errno == EEXIST
    case Some(_) => false
  }

  /** errors.Is by identity: `cause` is `e` or sits somewhere in its chain of
      %w wrappings and joins. */
  predicate Wraps(e: Error, cause: Error)
    decreases e
  {
    e == cause ||
    match e
    case Wrapped(_, inner) => Wraps(inner, cause)
    case Joined(errs) => exists i :: 0 <= i < |errs| && Wraps(errs[i], cause)
    case _ => false
  }

  /** fmt.Errorf("<msg>: %w", errors.Join(e0, e1)) keeps both causes. */
  function WrapBoth(msg: string, e0: Error, e1: Error): (e: Error)
    ensures Wraps(e, e0) && Wraps(e, e1)
    ensures e.Wrapped? && e.msg == msg
  {
    var joined := Joined([e0, e1]);
    assert Wraps(joined.errs[0], e0) && Wraps(joined.errs[1], e1);
    Wrapped(msg, joined)
  }
}

=== FILE: hex.dfy ===
/** Bytes and their lowercase hexadecimal spelling, as encoding/hex's
    EncodeToString writes it, together with the decoder that inverts it. */
module Hex {
  import opened Wrappers

  type byte = b: int | 0 <= b < 256

  /** A lowercase hexadecimal digit, the only kind EncodeToString emits. */
  predicate IsDigit(c: char) {
    '0' <= c <= '9' || 'a' <= c <= 'f'
  }

  function DigitValue(c: char): (n: int)
    requires IsDigit(c)
    ensures 0 <= n < 16
  {
    if c <= '9' then c as int - '0' as int else c as int - 'a' as int + 10
  }

  /** The digit spelling the nibble `n`; `DigitValue` reads it back. */
  function Digit(n: int): (c: char)
    requires 0 <= n < 16
    ensures IsDigit(c) && DigitValue(c) == n
  {
    if n < 10 then ('0' as int + n) as char else ('a' as int + n - 10) as char
  }

  lemma DigitOfValue(c: char)
    requires IsDigit(c)
    ensures Digit(DigitValue(c)) == c
  {
  }

  /** Two digits per byte, high nibble first. */
  function Encode(bs: seq<byte>): (s: string)
    ensures |s| == 2 * |bs|
    ensures forall i :: 0 <= i < |s| ==> IsDigit(s[i])
  {
    if |bs| == 0 then "" else [Digit(bs[0] / 16), Digit(bs[0] % 16)] + Encode(bs[1..])
  }

  /** Reads an even-length string of lowercase digits back into bytes; any
      other string is refused. */
  function Decode(s: string): (r: Option<seq<byte>>)
    ensures r.Some? <==> |s| % 2 == 0 && forall i :: 0 <= i < |s| ==> IsDigit(s[i])
    ensures r.Some? ==> 2 * |r.value| == |s|
    decreases |s|
  {
    if |s| == 0 then Some([])
    else if |s| == 1 || !IsDigit(s[0]) || !IsDigit(s[1]) then None
    else
      match Decode(s[2..])
      case None =>
        assert |s| % 2 == 0 ==> !(forall i :: 0 <= i < |s| ==> IsDigit(s[i])) by {
          if |s| % 2 == 0 {
            var j :| 0 <= j < |s[2..]| && !IsDigit(s[2..][j]);
            assert s[2..][j] == s[j + 2];
          }
        }
        None
      case Some(rest) => Some([(DigitValue(s[0]) * 16 + DigitValue(s[1])) as byte] + rest)
  }

  lemma {:induction false} DecodeEncode(bs: seq<byte>)
    ensures Decode(Encode(bs)) == Some(bs)
  {
    if |bs| > 0 {
      var s := Encode(bs);
      assert s[2..] == Encode(bs[1..]);
      DecodeEncode(bs[1..]);
      assert (DigitValue(s[0]) * 16 + DigitValue(s[1])) == bs[0];
      assert [bs[0]] + bs[1..] == bs;
    }
  }

  lemma {:induction false} EncodeDecode(s: string, bs: seq<byte>)
    requires Decode(s) == Some(bs)
    ensures Encode(bs) == s
    decreases |s|
  {
    if |s| > 0 {
      var rest := Decode(s[2..]).value;
      EncodeDecode(s[2..], rest);
      assert bs == [bs[0]] + rest;
      var hi, lo := DigitValue(s[0]), DigitValue(s[1]);
      assert bs[0] / 16 == hi && bs[0] % 16 == lo;
      DigitOfValue(s[0]);
      DigitOfValue(s[1]);
      assert s == [s[0], s[1]] + s[2..];
    }
  }

  /** Distinct byte strings have distinct spellings. */
  lemma EncodeInjective(a: seq<byte>, b: seq<byte>)
    requires Encode(a) == Encode(b)
    ensures a == b
  {
    DecodeEncode(a);
    DecodeEncode(b);
  }
}

=== FILE: launcher.dfy ===
/** exec.go's Exec: a payload plus a path memoised on the first successful
    materialisation, from which Command builds the command to run. */
module Launcher {
  import opened Wrappers
  import opened Errors
  import opened Hex
  import opened Os
  import opened Materializer

  /** 0755: the mode Command materialises the executable with. */
  const ExecutableMode: Mode := 0x1ED

  /** Exec (exec.go:16-21): the payload, and the path of its materialised
      file, "" until the first successful createFile. */
  datatype Exec = Exec(filename: string, data: seq<byte>, path: Path)

  /** The command exec.CommandContext builds for the path; it is never run here. */
  datatype Cmd = Cmd(path: Path, args: seq<string>)

  /** An Exec after one Command call, the file system after it, and the call's result. */
  datatype Call = Call(exec: Exec, fs: FileSystem, result: Result<Cmd, Error>)

  /** NewExec: a fresh Exec has no path until createFile succeeds. */
  function NewExec(filename: string, data: seq<byte>): (e: Exec)
    ensures e.filename == filename && e.data == data
    ensures e.path == ""
  {
    Exec(filename, data, "")
  }

  /** Command (exec.go:29-38): materialise the payload only while no path is
      memoised; on failure wrap the error with the file name and leave the
      Exec as it was, so that a later call tries again. */
  function Command(e: Exec, fs: FileSystem, pl: Platform, f: CreateFaults, args: seq<string>): (c: Call)
    ensures c.exec.filename == e.filename && c.exec.data == e.data
    ensures e.path != "" ==> c == Call(e, fs, Success(Cmd(e.path, args)))
    ensures c.result.Success? ==> c.exec.path != "" && c.result.value == Cmd(c.exec.path, args)
    ensures e.path == "" && c.result.Success? ==>
      c.exec.path in c.fs.files && c.fs.files[c.exec.path] == File(e.data, ExecutableMode)
    ensures e.path == "" ==>
      var made := CreateFile(fs, pl, e.filename, e.data, ExecutableMode, f);
      && c.fs == made.fs
      && (c.result.Failure? <==> made.result.Failure?)
      && (made.result.Failure? ==> Wraps(c.result.error, made.result.error))
      && (made.result.Success? ==> c.exec.path == made.result.value)
    ensures c.result.Failure? ==>
      && c.exec == e
      && c.result.error.Wrapped?
      && c.result.error.msg == "failed to create file " + e.filename
  {
    if e.path == "" then
      var made := CreateFile(fs, pl, e.filename, e.data, ExecutableMode, f);
      match made.result
      case Failure(err) => Call(e, made.fs, Failure(Wrapped("failed to create file " + e.filename, err)))
      case Success(path) => Call(e.(path := path), made.fs, Success(Cmd(path, args)))
    else
      Call(e, fs, Success(Cmd(e.path, args)))
  }

  /** Where a run of Command calls on one Exec leaves it, the file system, and
      in how many of the calls createFile succeeded. */
  datatype Session = Session(exec: Exec, fs: FileSystem, created: nat)

  /** One Command call of a run: the faults its createFile meets and the
      arguments it is given. */
  datatype Invocation = Invocation(faults: CreateFaults, args: seq<string>)

  /** Calls Command once per entry of `calls`, each with its own faults and
      arguments, threading the Exec and the file system through. */
  function Replay(e: Exec, fs: FileSystem, pl: Platform, calls: seq<Invocation>): Session
    decreases |calls|
  {
    if |calls| == 0 then Session(e, fs, 0)
    else
      var c := Command(e, fs, pl, calls[0].faults, calls[0].args);
      var rest := Replay(c.exec, c.fs, pl, calls[1..]);
      rest.(created := rest.created + if e.path == "" && c.result.Success? then 1 else 0)
  }

  /** Once a path is memoised, no later call changes it, calls createFile
      again or touches the file system. */
  lemma {:induction false} ResolvedIsSticky(e: Exec, fs: FileSystem, pl: Platform, calls: seq<Invocation>)
    requires e.path != ""
    ensures Replay(e, fs, pl, calls) == Session(e, fs, 0)
    decreases |calls|
  {
    if |calls| > 0 {
      ResolvedIsSticky(e, fs, pl, calls[1..]);
    }
  }

  /** Over any run of calls createFile succeeded at most once, exactly when
      the Exec goes from unresolved to resolved; the payload itself never
      changes. */
  lemma {:induction false} MaterialisesAtMostOnce(e: Exec, fs: FileSystem, pl: Platform, calls: seq<Invocation>)
    ensures var s := Replay(e, fs, pl, calls);
      && s.exec.filename == e.filename && s.exec.data == e.data
      && s.created <= 1
      && (s.created == 1 <==> e.path == "" && s.exec.path != "")
      && (e.path != "" ==> s.exec.path == e.path)
    decreases |calls|
  {
    if |calls| > 0 {
      var c := Command(e, fs, pl, calls[0].faults, calls[0].args);
      MaterialisesAtMostOnce(c.exec, c.fs, pl, calls[1..]);
      if c.exec.path != "" {
        ResolvedIsSticky(c.exec, c.fs, pl, calls[1..]);
      }
    }
  }

  /** A failed call does not poison the Exec: once the faults clear, and no
      file is in the way of the cache directory, the next call materialises
      the payload at its canonical path and memoises it. */
  lemma RetryAfterFailure(e: Exec, fs: FileSystem, pl: Platform, f1: CreateFaults, f2: CreateFaults, args1: seq<string>, args2: seq<string>)
    requires e.path == "" && CacheDir(pl) !in fs.files
    requires Command(e, fs, pl, f1, args1).result.Failure?
    requires NoFaults(f2)
    ensures var first := Command(e, fs, pl, f1, args1);
      var second := Command(first.exec, first.fs, pl, f2, args2);
      && second.result == Success(Cmd(CanonicalPath(pl, e.filename, e.data), args2))
      && second.exec.path == CanonicalPath(pl, e.filename, e.data)
  {
  }
}

=== FILE: materializer.dfy ===
/** exec.go's file materialisation: createFile derives a content-addressed
    path in the cache directory and saves the payload there through a `.tmp`
    sibling and a rename, falling back to a freshly named temporary file, and
    reporting both causes when both attempts fail. */
module Materializer {
  import opened Wrappers
  import opened Errors
  import opened Hex
  import opened Os

  type Digest = d: seq<byte> | |d| == 32 witness seq(32, i => 0)

  /** What the process environment fixes: os.TempDir(), the platform's
      executable suffix, and sha256.Sum256 (any function onto 32 bytes). */
  datatype Platform = Platform(tempRoot: Path, suffix: string, sha256: seq<byte> -> Digest)

  /** Faults injected into writeFile's os.WriteFile, os.Chmod and os.Rename. */
  datatype WriteFaults = WriteFaults(create: Option<Fault>, chmod: Option<Fault>, rename: Option<Fault>)

  /** Faults injected into saveFile's os.Stat, os.ReadFile and os.Chmod. */
  datatype SaveFaults = SaveFaults(stat: Option<Fault>, read: Option<Fault>, chmod: Option<Fault>, write: WriteFaults)

  /** The random stream os.CreateTemp draws names from, and the faults
      injected into its open and into the Write, Sync and Chmod that follow. */
  datatype TempFaults = TempFaults(random: nat -> string, open: Option<Fault>, write: Option<Fault>, sync: Option<Fault>, chmod: Option<Fault>)

  datatype CreateFaults = CreateFaults(mkdir: Option<Fault>, save: SaveFaults, temp: TempFaults)

  predicate NoFaults(f: CreateFaults) {
    && f.mkdir.None?
    && f.save.stat.None? && f.save.read.None? && f.save.chmod.None?
    && f.save.write.create.None? && f.save.write.chmod.None? && f.save.write.rename.None?
  }

  /** tempDir(): the embedbin directory under the temp root. */
  function CacheDir(pl: Platform): Path {
    Join(pl.tempRoot, "embedbin")
  }

  /** `<filename>-<hex sha256 of data>`. */
  function CanonicalName(pl: Platform, filename: string, data: seq<byte>): string {
    filename + "-" + Encode(pl.sha256(data))
  }

  /** The content-addressed cache path: the cache directory, the name, 64
      lowercase hex digits, then the platform suffix. */
  function CanonicalPath(pl: Platform, filename: string, data: seq<byte>): (p: Path)
    ensures CacheDir(pl) + [Separator] + filename + "-" <= p
    ensures |p| == |CacheDir(pl)| + |filename| + 66 + |pl.suffix|
    ensures forall i :: |CacheDir(pl)| + |filename| + 2 <= i < |CacheDir(pl)| + |filename| + 66 ==> IsDigit(p[i])
    ensures p[|p| - |pl.suffix|..] == pl.suffix
    ensures Decode(p[|CacheDir(pl)| + |filename| + 2..|CacheDir(pl)| + |filename| + 66]) == Some(pl.sha256(data))
  {
    var p := Join(CacheDir(pl), CanonicalName(pl, filename, data) + pl.suffix);
    var start := |CacheDir(pl)| + |filename| + 2;
    assert forall i :: start <= i < start + 64 ==> p[i] == Encode(pl.sha256(data))[i - start];
    assert p[start..start + 64] == Encode(pl.sha256(data));
    DecodeEncode(pl.sha256(data));
    p
  }

  /** The fixed sibling writeFile stages its content in. */
  function TmpSibling(p: Path): Path {
    p + ".tmp"
  }

  /** writeFile (exec.go:97-114): os.WriteFile to the `.tmp` sibling, chmod it,
      rename it over the target. Stops at the first failure, leaving the
      sibling behind and the target untouched. */
  function WriteFile(fs: FileSystem, target: Path, data: seq<byte>, mode: Mode, f: WriteFaults): (s: Step<()>)
    ensures s.fs.dirs == fs.dirs
    ensures s.result.Success? <==> f.create.None? && f.chmod.None? && f.rename.None?
    ensures s.result.Success? ==>
      && target in s.fs.files && s.fs.files[target] == File(data, mode)
      && TmpSibling(target) !in s.fs.files
      && s.fs.files.Keys == fs.files.Keys - {TmpSibling(target)} + {target}
      && s.fs.writes == fs.writes + 1
    ensures Preserves(fs.files, s.fs.files, {target, TmpSibling(target)})
    ensures f.create.Some? ==> s == Step(fs, Failure(PathError("open", TmpSibling(target), f.create.value)))
    ensures f.create.None? && s.result.Failure? ==>
      && TmpSibling(target) in s.fs.files && s.fs.files[TmpSibling(target)].data == data
      && s.fs.files.Keys == fs.files.Keys + {TmpSibling(target)}
      && Preserves(fs.files, s.fs.files, {TmpSibling(target)})
    ensures f.create.None? && f.chmod.Some? ==> s.result == Failure(PathError("chmod", TmpSibling(target), f.chmod.value))
    ensures f.create.None? && f.chmod.None? && f.rename.Some? ==>
      s.result == Failure(LinkError("rename", TmpSibling(target), target, f.rename.value))
  {
    var tmp := TmpSibling(target);
    var w := Os.WriteFile(fs, tmp, data, mode, f.create);
    if w.result.Failure? then w
    else
      var c := Os.Chmod(w.fs, tmp, mode, f.chmod);
      if c.result.Failure? then c
      else Os.Rename(c.fs, tmp, target, f.rename)
  }

  /** exec.go:75-93, on a target that exists with size `size` and mode
      `current`: rewrite when the size or the bytes differ; otherwise leave the
      content alone and chmod only when the mode differs. */
  function Reconcile(fs: FileSystem, p: Path, data: seq<byte>, mode: Mode, size: nat, current: Mode, f: SaveFaults): (s: Step<()>)
    requires p in fs.files && size == |fs.files[p].data| && current == fs.files[p].mode
    ensures s.fs.dirs == fs.dirs
    ensures s.result.Success? ==> p in s.fs.files && s.fs.files[p] == File(data, mode)
    ensures Preserves(fs.files, s.fs.files, {p, TmpSibling(p)})
    ensures s.result.Failure? ==> fs.files.Keys <= s.fs.files.Keys
    ensures s.fs.files.Keys <= fs.files.Keys + {TmpSibling(p)}
    ensures fs.files[p].data == data ==>
      && s.fs.writes == fs.writes
      && s.fs.files.Keys == fs.files.Keys
      && s.fs.files[p].data == data
      && Preserves(fs.files, s.fs.files, {p})
    ensures fs.files[p].data == data && f.read.None? ==> (s.result.Success? <==> current == mode || f.chmod.None?)
    ensures fs.files[p] == File(data, mode) && f.read.None? ==> s == Step(fs, Success(()))
    ensures f.read.None? && f.chmod.None? && f.write.create.None? && f.write.chmod.None? && f.write.rename.None? ==>
      s.result.Success?
  {
    if size != |data| then WriteFile(fs, p, data, mode, f.write)
    else
      match Os.ReadFile(fs, p, f.read)
      case Failure(e) => Step(fs, Failure(e))
      case Success(raw) =>
        if raw != data then WriteFile(fs, p, data, mode, f.write)
        else if current != mode then Os.Chmod(fs, p, mode, f.chmod)
        else Step(fs, Success(()))
  }

  /** saveFile with the guard exec.go:71 evidently intends: write a missing
      target, report any other stat failure, reconcile an existing one. */
  function SaveFile(fs: FileSystem, p: Path, data: seq<byte>, mode: Mode, f: SaveFaults): (s: Step<()>)
    ensures s.fs.dirs == fs.dirs
    ensures s.result.Success? ==> p in s.fs.files && s.fs.files[p] == File(data, mode)
    ensures Preserves(fs.files, s.fs.files, {p, TmpSibling(p)})
    ensures s.result.Failure? ==> fs.files.Keys <= s.fs.files.Keys
    ensures s.fs.files.Keys <= fs.files.Keys + {p, TmpSibling(p)}
    ensures f.stat.Some? && f.stat.value != ENOENT ==> s == Step(fs, Failure(PathError("stat", p, f.stat.value)))
    ensures p in fs.files && fs.files[p].data == data && f.stat.None? ==>
      && s.fs.writes == fs.writes
      && s.fs.files.Keys == fs.files.Keys
      && s.fs.files[p].data == data
      && Preserves(fs.files, s.fs.files, {p})
    ensures p in fs.files && fs.files[p] == File(data, mode) && f.stat.None? && f.read.None? ==> s == Step(fs, Success(()))
    ensures f.stat.None? && f.read.None? && f.chmod.None? && f.write.create.None? && f.write.chmod.None? && f.write.rename.None? ==>
      s.result.Success?
  {
    match Os.Stat(fs, p, f.stat)
    case NotExist => WriteFile(fs, p, data, mode, f.write)
    case OtherErr(e) => Step(fs, Failure(PathError("stat", p, e)))
    case Exists(size, current) => Reconcile(fs, p, data, mode, size, current, f)
  }

  /** saveFile as exec.go:70-94 writes it. The guard `!os.IsExist(err)` holds
      for every Stat outcome, so it always rewrites through writeFile and
      lines 75-93 are unreachable. */
  function SaveFileAsWritten(fs: FileSystem, p: Path, data: seq<byte>, mode: Mode, f: SaveFaults): (s: Step<()>)
    ensures s == WriteFile(fs, p, data, mode, f.write)
  {
    var info := Os.Stat(fs, p, f.stat);
    if !IsExist(StatError(p, info)) then WriteFile(fs, p, data, mode, f.write)
    else assert false; Step(fs, Success(()))
  }

  /** On a target that already holds the payload with the requested mode, the
      corrected saveFile does nothing, while the code as written rewrites the
      bytes and, when the cache directory refuses the `.tmp` sibling, fails
      where nothing needed doing. */
  lemma AsWrittenRewritesCorrectFile(fs: FileSystem, p: Path, data: seq<byte>, mode: Mode, f: SaveFaults)
    requires p in fs.files && fs.files[p] == File(data, mode)
    requires f.stat.None? && f.read.None?
    ensures SaveFile(fs, p, data, mode, f) == Step(fs, Success(()))
    ensures f.write.create.None? ==> SaveFileAsWritten(fs, p, data, mode, f).fs.writes == fs.writes + 1
    ensures f.write.create.Some? ==> SaveFileAsWritten(fs, p, data, mode, f).result.Failure?
  {
  }

  /** saveTempFile (exec.go:116-139): os.CreateTemp in `dir` with the pattern
      `<name>-*<suffix>`, then Write, Sync and Chmod. A failure after the
      create leaves the new file behind. */
  function SaveTempFile(fs: FileSystem, dir: Path, name: string, suffix: string, data: seq<byte>, mode: Mode, f: TempFaults): (s: Step<Path>)
    ensures s.fs.dirs == fs.dirs
    ensures fs.files.Keys <= s.fs.files.Keys
    ensures Preserves(fs.files, s.fs.files, {})
    ensures forall q :: q in s.fs.files && q !in fs.files ==> dir + [Separator] <= q
    ensures s.result.Success? ==>
      && s.result.value !in fs.files
      && s.fs.files == fs.files[s.result.value := File(data, mode)]
      && |s.result.value| >= |dir| + |name| + 2 + |suffix|
    ensures s.result.Success? && '*' !in suffix ==>
      exists k :: 0 <= k < MaxTries && s.result.value == Join(dir, name + "-") + f.random(k) + suffix
    ensures var c := Os.CreateTemp(fs, dir, name + "-*" + suffix, f.random, f.open);
      && (c.result.Failure? ==> s == Step(fs, Failure(c.result.error)))
      && (c.result.Success? ==> s.fs.files.Keys == fs.files.Keys + {c.result.value})
    ensures Separator in name || Separator in suffix ==> s.result.Failure?
    ensures var pattern := name + "-*" + suffix;
      s.result.Success? <==>
        && Separator !in pattern
        && FirstFree(fs.files, Join(dir, SplitPattern(pattern).0), SplitPattern(pattern).1, f.random, 0).Some?
        && f.open.None? && f.write.None? && f.sync.None? && f.chmod.None?
  {
    var pattern := name + "-*" + suffix;
    assert Separator in name || Separator in suffix ==> Separator in pattern;
    var c := Os.CreateTemp(fs, dir, pattern, f.random, f.open);
    if c.result.Failure? then Step(c.fs, Failure(c.result.error))
    else
      var p := c.result.value;
      var w := Os.FileWrite(c.fs, p, data, f.write);
      if w.result.Failure? then Step(w.fs, Failure(w.result.error))
      else
        var y := Os.Sync(w.fs, p, f.sync);
        if y.result.Failure? then Step(y.fs, Failure(y.result.error))
        else
          var m := Os.Chmod(y.fs, p, mode, f.chmod);
          if m.result.Failure? then Step(m.fs, Failure(m.result.error))
          else
            assert '*' !in suffix ==> SplitPattern(pattern) == (name + "-", suffix) by {
              if '*' !in suffix {
                assert pattern == (name + "-") + "*" + suffix;
                SplitAtStar(name + "-", suffix);
              }
            }
            Step(m.fs, Success(p))
  }

  /** createFile (exec.go:44-67) as written: make the cache directory, then
      save at the canonical path with saveFile as written, else in a fresh
      temporary file, else fail with an error naming the file and carrying
      both causes. */
  function CreateFile(fs: FileSystem, pl: Platform, filename: string, data: seq<byte>, mode: Mode, f: CreateFaults): (s: Step<Path>)
    ensures fs.dirs <= s.fs.dirs <= fs.dirs + {CacheDir(pl)}
    ensures s.result.Success? ==> CacheDir(pl) in s.fs.dirs
    ensures s.result.Success? ==>
      && s.result.value != ""
      && s.result.value in s.fs.files
      && s.fs.files[s.result.value] == File(data, mode)
    ensures s.result.Success? && s.result.value != CanonicalPath(pl, filename, data) ==> s.result.value !in fs.files
    ensures Preserves(fs.files, s.fs.files, {CanonicalPath(pl, filename, data), TmpSibling(CanonicalPath(pl, filename, data))})
    ensures forall q :: q in s.fs.files && q !in fs.files ==> CacheDir(pl) + [Separator] <= q
  {
    var dir := CacheDir(pl);
    var made := Os.MkdirAll(fs, dir, f.mkdir);
    if made.result.Failure? then Step(made.fs, Failure(made.result.error))
    else
      var name := CanonicalName(pl, filename, data);
      var defaultPath := Join(dir, name + pl.suffix);
      assert defaultPath == CanonicalPath(pl, filename, data);
      var saved := SaveFileAsWritten(made.fs, defaultPath, data, mode, f.save);
      assert dir + [Separator] <= TmpSibling(defaultPath);
      if saved.result.Success? then Step(saved.fs, Success(defaultPath))
      else
        var temp := SaveTempFile(saved.fs, dir, name, pl.suffix, data, mode, f.temp);
        if temp.result.Success? then temp
        else Step(temp.fs, Failure(WrapBoth("failed to create file " + filename, saved.result.error, temp.result.error)))
  }

  /** createFile with the corrected saveFile: the same steps as `CreateFile`,
      except that a canonical file already holding the payload is reconciled
      in place instead of rewritten. */
  function CreateFileCorrected(fs: FileSystem, pl: Platform, filename: string, data: seq<byte>, mode: Mode, f: CreateFaults): (s: Step<Path>)
    ensures fs.dirs <= s.fs.dirs <= fs.dirs + {CacheDir(pl)}
    ensures s.result.Success? ==> CacheDir(pl) in s.fs.dirs
    ensures s.result.Success? ==>
      && s.result.value != ""
      && s.result.value in s.fs.files
      && s.fs.files[s.result.value] == File(data, mode)
    ensures s.result.Success? && s.result.value != CanonicalPath(pl, filename, data) ==> s.result.value !in fs.files
    ensures Preserves(fs.files, s.fs.files, {CanonicalPath(pl, filename, data), TmpSibling(CanonicalPath(pl, filename, data))})
    ensures forall q :: q in s.fs.files && q !in fs.files ==> CacheDir(pl) + [Separator] <= q
  {
    var dir := CacheDir(pl);
    var made := Os.MkdirAll(fs, dir, f.mkdir);
    if made.result.Failure? then Step(made.fs, Failure(made.result.error))
    else
      var name := CanonicalName(pl, filename, data);
      var defaultPath := Join(dir, name + pl.suffix);
      assert defaultPath == CanonicalPath(pl, filename, data);
      var saved := SaveFile(made.fs, defaultPath, data, mode, f.save);
      assert dir + [Separator] <= TmpSibling(defaultPath);
      if saved.result.Success? then Step(saved.fs, Success(defaultPath))
      else
        var temp := SaveTempFile(saved.fs, dir, name, pl.suffix, data, mode, f.temp);
        if temp.result.Success? then temp
        else Step(temp.fs, Failure(WrapBoth("failed to create file " + filename, saved.result.error, temp.result.error)))
  }

  /** Where createFile proceeds from once the cache directory exists. */
  function Prepared(fs: FileSystem, pl: Platform): FileSystem {
    fs.(dirs := fs.dirs + {CacheDir(pl)})
  }

  /** os.MkdirAll of the cache directory will succeed. */
  predicate CanMkdir(fs: FileSystem, pl: Platform, f: CreateFaults) {
    CacheDir(pl) in fs.dirs || (CacheDir(pl) !in fs.files && f.mkdir.None?)
  }

  /** The canonical path spells out the digest, so two payloads share it
      exactly when their digests agree. */
  lemma CanonicalPathInjective(pl: Platform, filename: string, a: seq<byte>, b: seq<byte>)
    ensures CanonicalPath(pl, filename, a) == CanonicalPath(pl, filename, b) <==> pl.sha256(a) == pl.sha256(b)
  {
    var head := CacheDir(pl) + [Separator] + filename + "-";
    var pa, pb := CanonicalPath(pl, filename, a), CanonicalPath(pl, filename, b);
    assert pa == head + Encode(pl.sha256(a)) + pl.suffix;
    assert pb == head + Encode(pl.sha256(b)) + pl.suffix;
    if pa == pb {
      assert pa[|head|..|head| + 64] == Encode(pl.sha256(a));
      assert pb[|head|..|head| + 64] == Encode(pl.sha256(b));
      EncodeInjective(pl.sha256(a), pl.sha256(b));
    }
  }

  /** A cache directory that cannot be created stops createFile before any
      file is touched, with MkdirAll's own error. */
  lemma MkdirFailureChangesNothing(fs: FileSystem, pl: Platform, filename: string, data: seq<byte>, mode: Mode, f: CreateFaults)
    requires !CanMkdir(fs, pl, f)
    ensures var s := CreateFile(fs, pl, filename, data, mode, f);
      && s.fs == fs
      && s.result == Failure(PathError("mkdir", CacheDir(pl), if CacheDir(pl) in fs.files then ENOTDIR else f.mkdir.value))
  {
  }

  /** createFile returns the canonical path exactly when saveFile succeeds there. */
  lemma CanonicalExactlyWhenSaved(fs: FileSystem, pl: Platform, filename: string, data: seq<byte>, mode: Mode, f: CreateFaults)
    requires CanMkdir(fs, pl, f)
    ensures var saved := SaveFileAsWritten(Prepared(fs, pl), CanonicalPath(pl, filename, data), data, mode, f.save);
      CreateFile(fs, pl, filename, data, mode, f).result == Success(CanonicalPath(pl, filename, data)) <==> saved.result.Success?
  {
  }

  /** When saveFile fails, createFile's outcome is saveTempFile's, and when that
      fails too the error names the file and keeps both causes. */
  lemma FallsBackWhenSaveFails(fs: FileSystem, pl: Platform, filename: string, data: seq<byte>, mode: Mode, f: CreateFaults)
    requires CanMkdir(fs, pl, f)
    requires SaveFileAsWritten(Prepared(fs, pl), CanonicalPath(pl, filename, data), data, mode, f.save).result.Failure?
    ensures
      var saved := SaveFileAsWritten(Prepared(fs, pl), CanonicalPath(pl, filename, data), data, mode, f.save);
      var temp := SaveTempFile(saved.fs, CacheDir(pl), CanonicalName(pl, filename, data), pl.suffix, data, mode, f.temp);
      var s := CreateFile(fs, pl, filename, data, mode, f);
      && s.fs == temp.fs
      && (temp.result.Success? ==> s.result == temp.result)
      && (temp.result.Failure? ==>
            && s.result.Failure?
            && s.result.error.Wrapped?
            && s.result.error.msg == "failed to create file " + filename
            && Wraps(s.result.error, saved.result.error)
            && Wraps(s.result.error, temp.result.error))
  {
  }

  /** With no injected fault on the canonical route and no file in the way of
      the cache directory, createFile lands on the canonical path. */
  lemma SucceedsWithoutFaults(fs: FileSystem, pl: Platform, filename: string, data: seq<byte>, mode: Mode, f: CreateFaults)
    requires NoFaults(f) && CacheDir(pl) !in fs.files
    ensures CreateFile(fs, pl, filename, data, mode, f).result == Success(CanonicalPath(pl, filename, data))
  {
  }

  /** When saveFile fails but the temporary route meets no fault, the names
      carry no separator, and one of the random candidates is still free,
      createFile succeeds on a fresh path off the canonical one, drawn from
      the random stream and holding the payload. */
  lemma FallbackSucceedsWithoutFaults(fs: FileSystem, pl: Platform, filename: string, data: seq<byte>, mode: Mode, f: CreateFaults)
    requires CanMkdir(fs, pl, f)
    requires SaveFileAsWritten(Prepared(fs, pl), CanonicalPath(pl, filename, data), data, mode, f.save).result.Failure?
    requires f.temp.open.None? && f.temp.write.None? && f.temp.sync.None? && f.temp.chmod.None?
    requires Separator !in filename && Separator !in pl.suffix && '*' !in pl.suffix
    requires var saved := SaveFileAsWritten(Prepared(fs, pl), CanonicalPath(pl, filename, data), data, mode, f.save);
      exists k :: 0 <= k < MaxTries &&
        Join(CacheDir(pl), CanonicalName(pl, filename, data) + "-") + f.temp.random(k) + pl.suffix !in saved.fs.files
    ensures var s := CreateFile(fs, pl, filename, data, mode, f);
      && s.result.Success?
      && s.result.value != CanonicalPath(pl, filename, data)
      && s.fs.files[s.result.value] == File(data, mode)
      && exists k :: 0 <= k < MaxTries &&
           s.result.value == Join(CacheDir(pl), CanonicalName(pl, filename, data) + "-") + f.temp.random(k) + pl.suffix
  {
    var saved := SaveFileAsWritten(Prepared(fs, pl), CanonicalPath(pl, filename, data), data, mode, f.save);
    NameHasNoSeparator(pl, filename, data);
    TempRouteSucceeds(saved.fs, CacheDir(pl), CanonicalName(pl, filename, data), pl.suffix, data, mode, f.temp);
    FallsBackWhenSaveFails(fs, pl, filename, data, mode, f);
  }

  /** saveTempFile succeeds when it meets no fault, neither name nor suffix
      holds a separator, the suffix holds no `*`, and one of the random
      candidates is free. */
  lemma TempRouteSucceeds(fs: FileSystem, dir: Path, name: string, suffix: string, data: seq<byte>, mode: Mode, f: TempFaults)
    requires f.open.None? && f.write.None? && f.sync.None? && f.chmod.None?
    requires Separator !in name && Separator !in suffix && '*' !in suffix
    requires exists k :: 0 <= k < MaxTries && Join(dir, name + "-") + f.random(k) + suffix !in fs.files
    ensures SaveTempFile(fs, dir, name, suffix, data, mode, f).result.Success?
  {
    var pattern := name + "-*" + suffix;
    assert pattern == (name + "-") + "*" + suffix;
    SplitAtStar(name + "-", suffix);
    assert Separator !in pattern by {
      assert forall i :: 0 <= i < |pattern| ==>
        pattern[i] == (if i < |name| then name[i] else if i == |name| then '-' else if i == |name| + 1 then '*' else suffix[i - |name| - 2]);
    }
    var k :| 0 <= k < MaxTries && Join(dir, name + "-") + f.random(k) + suffix !in fs.files;
    assert FirstFree(fs.files, Join(dir, name + "-"), suffix, f.random, 0).Some?;
  }

  /** The canonical name is the file's name and hex digits, so it holds a
      separator only when the file's name does. */
  lemma NameHasNoSeparator(pl: Platform, filename: string, data: seq<byte>)
    requires Separator !in filename
    ensures Separator !in CanonicalName(pl, filename, data)
  {
    var name := CanonicalName(pl, filename, data);
    var hex := Encode(pl.sha256(data));
    assert forall i :: 0 <= i < |hex| ==> IsDigit(hex[i]);
    assert forall i :: 0 <= i < |name| ==> name[i] == (if i < |filename| then filename[i] else if i == |filename| then '-' else hex[i - |filename| - 1]);
  }

  /** With the corrected saveFile, once the payload is at its canonical path,
      calling createFile again returns the same path and touches nothing: no
      write, no chmod. */
  lemma RepeatedCallIsNoOp(fs: FileSystem, pl: Platform, filename: string, data: seq<byte>, mode: Mode, f1: CreateFaults, f2: CreateFaults)
    requires CreateFileCorrected(fs, pl, filename, data, mode, f1).result == Success(CanonicalPath(pl, filename, data))
    requires f2.save.stat.None? && f2.save.read.None?
    ensures var first := CreateFileCorrected(fs, pl, filename, data, mode, f1);
      CreateFileCorrected(first.fs, pl, filename, data, mode, f2) == Step(first.fs, Success(CanonicalPath(pl, filename, data)))
  {
  }

  /** Another payload's canonical path, and its `.tmp` sibling, are never the
      canonical path of a payload with a different digest. */
  lemma CanonicalPathsApart(pl: Platform, filename: string, data: seq<byte>, other: seq<byte>)
    requires pl.sha256(data) != pl.sha256(other)
    ensures CanonicalPath(pl, filename, data) != CanonicalPath(pl, filename, other)
    ensures CanonicalPath(pl, filename, data) != TmpSibling(CanonicalPath(pl, filename, other))
  {
    CanonicalPathInjective(pl, filename, data, other);
  }

  /** Materialising different content under the same name leaves the file
      already cached for the first content exactly as it was. */
  lemma ContentChangeIsolation(fs: FileSystem, pl: Platform, filename: string, data: seq<byte>, other: seq<byte>, mode: Mode, f: CreateFaults)
    requires pl.sha256(data) != pl.sha256(other)
    requires CanonicalPath(pl, filename, data) in fs.files
    ensures var s := CreateFile(fs, pl, filename, other, mode, f);
      && CanonicalPath(pl, filename, data) in s.fs.files
      && s.fs.files[CanonicalPath(pl, filename, data)] == fs.files[CanonicalPath(pl, filename, data)]
  {
    CanonicalPathsApart(pl, filename, data, other);
  }

  /** The code as written on a cache hit: a second call rewrites the canonical
      file it already holds, one more write for identical bytes. */
  lemma AsWrittenRewritesOnRepeat(fs: FileSystem, pl: Platform, filename: string, data: seq<byte>, mode: Mode, f1: CreateFaults, f2: CreateFaults)
    requires CreateFile(fs, pl, filename, data, mode, f1).result == Success(CanonicalPath(pl, filename, data))
    requires f2.save.write.create.None? && f2.save.write.chmod.None? && f2.save.write.rename.None?
    ensures var first := CreateFile(fs, pl, filename, data, mode, f1);
      var second := CreateFile(first.fs, pl, filename, data, mode, f2);
      && second.result == Success(CanonicalPath(pl, filename, data))
      && second.fs.writes == first.fs.writes + 1
  {
  }

  /** The code as written on a cache hit whose `.tmp` sibling cannot be
      created: the canonical file already holds the payload with its mode, yet
      createFile returns a freshly created temporary file instead, where the
      corrected version returns the canonical path and changes nothing. */
  lemma AsWrittenFallsBackOnCacheHit(fs: FileSystem, pl: Platform, filename: string, data: seq<byte>, mode: Mode, f: CreateFaults)
    requires CacheDir(pl) in fs.dirs
    requires CanonicalPath(pl, filename, data) in fs.files && fs.files[CanonicalPath(pl, filename, data)] == File(data, mode)
    requires f.save.stat.None? && f.save.read.None? && f.save.write.create.Some?
    ensures CreateFileCorrected(fs, pl, filename, data, mode, f) == Step(fs, Success(CanonicalPath(pl, filename, data)))
    ensures var s := CreateFile(fs, pl, filename, data, mode, f);
      s.result.Success? ==>
        && s.result.value != CanonicalPath(pl, filename, data)
        && s.result.value !in fs.files
        && |s.fs.files| == |fs.files| + 1
  {
  }

  /** The code as written on a read-only cache hit: the canonical file already
      holds the payload with its mode, but the directory refuses both the
      `.tmp` sibling and the temporary file. createFile then fails, although
      the corrected version returns the canonical path and changes nothing. */
  lemma AsWrittenFailsOnReadOnlyCacheHit(fs: FileSystem, pl: Platform, filename: string, data: seq<byte>, mode: Mode, f: CreateFaults)
    requires CacheDir(pl) in fs.dirs
    requires CanonicalPath(pl, filename, data) in fs.files && fs.files[CanonicalPath(pl, filename, data)] == File(data, mode)
    requires f.save.stat.None? && f.save.read.None? && f.save.write.create.Some?
    requires f.temp.open.Some?
    ensures CreateFile(fs, pl, filename, data, mode, f).result.Failure?
    ensures CreateFileCorrected(fs, pl, filename, data, mode, f) == Step(fs, Success(CanonicalPath(pl, filename, data)))
  {
  }
}

=== FILE: os.dfy ===
/** The os calls exec.go makes, over an abstract file system: a map
    from path to (content, mode). Each call either succeeds and updates the
    map or fails; failures that the map itself does not decide (permissions,
    a full or read-only disk, I/O errors) are supplied as an injected `Fault`. */
module Os {
  import opened Wrappers
  import opened Errors
  import opened Hex

  type Path = string

  /** fs.FileMode is a uint32. */
  type Mode = m: int | 0 <= m < 0x1_0000_0000

  const Separator: char := '/'

  /** 0600: the permission os.CreateTemp opens its file with. */
  const CreateTempMode: Mode := 0x180

  /** os.CreateTemp gives up after this many names that already exist. */
  const MaxTries: nat := 10000

  datatype File = File(data: seq<byte>, mode: Mode)

  /** `writes` counts the content writes performed so far; it stands for the
      modification times by which a rewrite of identical bytes is observable. */
  datatype FileSystem = FileSystem(files: map<Path, File>, dirs: set<Path>, writes: nat)

  /** The file system after a call, and the call's Go-style result. */
  datatype Step<+T> = Step(fs: FileSystem, result: Result<T, Error>)

  /** filepath.Join of a directory and a name, without path cleaning. */
  function Join(dir: Path, name: string): Path {
    dir + [Separator] + name
  }

  /** Every entry of `before` outside `except` is still present, unchanged. */
  ghost predicate Preserves(before: map<Path, File>, after: map<Path, File>, except: set<Path>) {
    forall q :: q in before && q !in except ==> q in after && after[q] == before[q]
  }

  /** os.MkdirAll on a single directory: nothing to do when it exists, ENOTDIR
      when a file is in the way, otherwise create it unless a fault intervenes. */
  function MkdirAll(fs: FileSystem, dir: Path, fault: Option<Fault>): (s: Step<()>)
    ensures s.fs.files == fs.files && s.fs.writes == fs.writes
    ensures s.result.Success? <==> dir in s.fs.dirs
    ensures s.result.Success? ==> s.fs.dirs == fs.dirs + {dir}
    ensures s.result.Failure? ==> s.fs == fs
    ensures dir in fs.dirs ==> s == Step(fs, Success(()))
    ensures dir !in fs.dirs && dir in fs.files ==> s.result == Failure(PathError("mkdir", dir, ENOTDIR))
  {
    if dir in fs.dirs then Step(fs, Success(()))
    else if dir in fs.files then Step(fs, Failure(PathError("mkdir", dir, ENOTDIR)))
    else if fault.Some? then Step(fs, Failure(PathError("mkdir", dir, fault.value)))
    else Step(fs.(dirs := fs.dirs + {dir}), Success(()))
  }

  /** What os.Stat reports. `OtherErr` carries an injected fault; an injected
      ENOENT (the file vanished) reads as `NotExist`. */
  datatype StatResult = Exists(size: nat, mode: Mode) | NotExist | OtherErr(errno: Fault)

  function Stat(fs: FileSystem, p: Path, fault: Option<Fault>): (r: StatResult)
    ensures r.Exists? <==> fault.None? && p in fs.files
    ensures r.Exists? ==> r.size == |fs.files[p].data| && r.mode == fs.files[p].mode
    ensures r.OtherErr? ==> fault == Some(r.errno) && r.errno != ENOENT
  {
    match fault
    case Some(e) => if e == ENOENT then NotExist else OtherErr(e)
    case None => if p in fs.files then Exists(|fs.files[p].data|, fs.files[p].mode) else NotExist
  }

  /** The error half of os.Stat's return. No Stat outcome is an "exists"
      error: os.IsExist is false for nil and for a not-exist error alike. */
  function StatError(p: Path, r: StatResult): (err: Option<Error>)
    ensures err.None? <==> r.Exists?
    ensures !IsExist(err)
  {
    match r
    case Exists(_, _) => None
    case NotExist => Some(PathError("stat", p, ENOENT))
    case OtherErr(e) => Some(PathError("stat", p, e))
  }

  function ReadFile(fs: FileSystem, p: Path, fault: Option<Fault>): (r: Result<seq<byte>, Error>)
    ensures r.Success? <==> fault.None? && p in fs.files
    ensures r.Success? ==> r.value == fs.files[p].data
  {
    if fault.Some? then Failure(PathError("open", p, fault.value))
    else if p !in fs.files then Failure(PathError("open", p, ENOENT))
    else Success(fs.files[p].data)
  }

  /** os.WriteFile: create or truncate, then write. `perm` applies only when
      the file is created; a truncated file keeps its mode. */
  function WriteFile(fs: FileSystem, p: Path, data: seq<byte>, perm: Mode, fault: Option<Fault>): (s: Step<()>)
    ensures s.fs.dirs == fs.dirs
    ensures s.result.Success? <==> fault.None?
    ensures s.result.Failure? ==> s == Step(fs, Failure(PathError("open", p, fault.value)))
    ensures s.result.Success? ==>
      && p in s.fs.files
      && s.fs.files[p] == File(data, if p in fs.files then fs.files[p].mode else perm)
      && s.fs.files.Keys == fs.files.Keys + {p}
      && s.fs.writes == fs.writes + 1
    ensures Preserves(fs.files, s.fs.files, {p})
  {
    if fault.Some? then Step(fs, Failure(PathError("open", p, fault.value)))
    else
      var mode := if p in fs.files then fs.files[p].mode else perm;
      Step(fs.(files := fs.files[p := File(data, mode)], writes := fs.writes + 1), Success(()))
  }

  /** os.Chmod, and (*os.File).Chmod on the file a handle names. */
  function Chmod(fs: FileSystem, p: Path, mode: Mode, fault: Option<Fault>): (s: Step<()>)
    ensures s.fs.dirs == fs.dirs && s.fs.writes == fs.writes
    ensures s.fs.files.Keys == fs.files.Keys
    ensures s.result.Success? <==> fault.None? && p in fs.files
    ensures s.result.Failure? ==> s.fs == fs
    ensures fault.Some? ==> s.result == Failure(PathError("chmod", p, fault.value))
    ensures s.result.Success? ==> s.fs.files[p] == File(fs.files[p].data, mode)
    ensures Preserves(fs.files, s.fs.files, {p})
  {
    if fault.Some? then Step(fs, Failure(PathError("chmod", p, fault.value)))
    else if p !in fs.files then Step(fs, Failure(PathError("chmod", p, ENOENT)))
    else Step(fs.(files := fs.files[p := File(fs.files[p].data, mode)]), Success(()))
  }

  /** os.Rename: the file at `src` moves to `dst`, replacing whatever was there. */
  function Rename(fs: FileSystem, src: Path, dst: Path, fault: Option<Fault>): (s: Step<()>)
    ensures s.fs.dirs == fs.dirs && s.fs.writes == fs.writes
    ensures s.result.Success? <==> fault.None? && src in fs.files
    ensures s.result.Failure? ==> s.fs == fs
    ensures fault.Some? ==> s.result == Failure(LinkError("rename", src, dst, fault.value))
    ensures s.result.Success? ==>
      && dst in s.fs.files && s.fs.files[dst] == fs.files[src]
      && s.fs.files.Keys == fs.files.Keys - {src} + {dst}
    ensures Preserves(fs.files, s.fs.files, {src, dst})
  {
    if fault.Some? then Step(fs, Failure(LinkError("rename", src, dst, fault.value)))
    else if src !in fs.files then Step(fs, Failure(LinkError("rename", src, dst, ENOENT)))
    else Step(fs.(files := (fs.files - {src})[dst := fs.files[src]]), Success(()))
  }

  /** Index of the last `c` in `s`, or -1 (bytealg.LastIndexByteString). */
  function LastIndexOf(s: string, c: char): (i: int)
    ensures -1 <= i < |s|
    ensures 0 <= i ==> s[i] == c
    ensures forall j :: i < j < |s| ==> s[j] != c
  {
    if |s| == 0 then -1
    else if s[|s| - 1] == c then |s| - 1
    else
      var t := s[..|s| - 1];
      assert forall j :: 0 <= j < |t| ==> t[j] == s[j];
      LastIndexOf(t, c)
  }

  /** os.CreateTemp's pattern split: around the last '*', or all prefix. */
  function SplitPattern(pattern: string): (r: (string, string))
    ensures '*' !in r.1
    ensures '*' in pattern ==> r.0 + "*" + r.1 == pattern
    ensures '*' !in pattern ==> r == (pattern, "")
  {
    var pos := LastIndexOf(pattern, '*');
    if pos == -1 then
      assert '*' !in pattern;
      (pattern, "")
    else
      var suffix := pattern[pos + 1..];
      assert forall j :: 0 <= j < |suffix| ==> suffix[j] == pattern[pos + 1 + j];
      assert pattern == pattern[..pos] + "*" + suffix;
      (pattern[..pos], suffix)
  }

  lemma SplitAtStar(prefix: string, suffix: string)
    requires '*' !in suffix
    ensures SplitPattern(prefix + "*" + suffix) == (prefix, suffix)
  {
    var pattern := prefix + "*" + suffix;
    var pos := LastIndexOf(pattern, '*');
    assert pattern[|prefix|] == '*';
    assert forall j :: pos < j < |pattern| ==> pattern[j] == pattern[pos + 1..][j - pos - 1];
    assert forall j :: |prefix| < j < |pattern| ==> pattern[j] == suffix[j - |prefix| - 1];
    assert pattern[..|prefix|] == prefix;
    assert pattern[|prefix| + 1..] == suffix;
  }

  /** The first try from `try` on whose candidate name is not taken, if any
      remains before os.CreateTemp gives up. */
  function FirstFree(files: map<Path, File>, prefix: string, suffix: string, random: nat -> string, try: nat): (r: Option<nat>)
    requires try <= MaxTries
    ensures r.Some? ==> try <= r.value < MaxTries && prefix + random(r.value) + suffix !in files
    ensures r.Some? ==> forall k :: try <= k < r.value ==> prefix + random(k) + suffix in files
    ensures r.None? ==> forall k :: try <= k < MaxTries ==> prefix + random(k) + suffix in files
    decreases MaxTries - try
  {
    if try == MaxTries then None
    else if prefix + random(try) + suffix !in files then Some(try)
    else FirstFree(files, prefix, suffix, random, try + 1)
  }

  /** os.CreateTemp(dir, pattern): refuses a pattern holding a separator, then
      draws names `dir/prefix<random>suffix` from the `random` stream and opens
      the first one that does not exist yet with O_EXCL, as an empty 0600 file;
      after MaxTries names that all exist it fails with EEXIST. */
  function CreateTemp(fs: FileSystem, dir: Path, pattern: string, random: nat -> string, fault: Option<Fault>): (s: Step<Path>)
    ensures s.fs.dirs == fs.dirs && s.fs.writes == fs.writes
    ensures s.result.Failure? ==> s.fs == fs
    ensures Separator in pattern ==> s.result.Failure?
    ensures s.result.Success? ==>
      && s.result.value !in fs.files
      && s.fs.files == fs.files[s.result.value := File([], CreateTempMode)]
    ensures s.result.Success? ==> dir + [Separator] <= s.result.value
    ensures s.result.Success? && '*' in pattern ==> |s.result.value| >= |dir| + |pattern|
    ensures s.result.Success? ==>
      var (prefix, suffix) := SplitPattern(pattern);
      exists k :: 0 <= k < MaxTries && s.result.value == Join(dir, prefix) + random(k) + suffix
    ensures s.result.Success? <==>
      && Separator !in pattern
      && FirstFree(fs.files, Join(dir, SplitPattern(pattern).0), SplitPattern(pattern).1, random, 0).Some?
      && fault.None?
  {
    if Separator in pattern then
      Step(fs, Failure(PathError("createtemp", pattern, PatternHasSeparator)))
    else
      var (prefix, suffix) := SplitPattern(pattern);
      var base := Join(dir, prefix);
      match FirstFree(fs.files, base, suffix, random, 0)
      case None => Step(fs, Failure(PathError("createtemp", base + "*" + suffix, EEXIST)))
      case Some(k) =>
        var p := base + random(k) + suffix;
        if fault.Some? then Step(fs, Failure(PathError("open", p, fault.value)))
        else Step(fs.(files := fs.files[p := File([], CreateTempMode)]), Success(p))
  }

  /** (*os.File).Write through a handle CreateTemp just opened: the file was
      empty and the handle at offset 0, so it ends up holding `data`. */
  function FileWrite(fs: FileSystem, p: Path, data: seq<byte>, fault: Option<Fault>): (s: Step<()>)
    requires p in fs.files
    ensures s.fs.dirs == fs.dirs
    ensures s.fs.files.Keys == fs.files.Keys
    ensures s.result.Success? <==> fault.None?
    ensures s.result.Failure? ==> s.fs == fs
    ensures s.result.Success? ==> s.fs.files[p] == File(data, fs.files[p].mode) && s.fs.writes == fs.writes + 1
    ensures Preserves(fs.files, s.fs.files, {p})
  {
    if fault.Some? then Step(fs, Failure(PathError("write", p, fault.value)))
    else Step(fs.(files := fs.files[p := File(data, fs.files[p].mode)], writes := fs.writes + 1), Success(()))
  }

  /** (*os.File).Sync: durability is not modelled, so only its failure shows. */
  function Sync(fs: FileSystem, p: Path, fault: Option<Fault>): (s: Step<()>)
    ensures s.fs == fs
    ensures s.result.Success? <==> fault.None?
  {
    if fault.Some? then Step(fs, Failure(PathError("sync", p, fault.value))) else Step(fs, Success(()))
  }
}

=== FILE: wrappers.dfy ===
/** Option and Result: the model's counterparts of Go's nil-able values and
    (value, error) return pairs. */
module Wrappers {

  datatype Option<+T> = None | Some(value: T)

  datatype Result<+T, +E> = Success(value: T) | Failure(error: E)
}
